=== FILE: README.md ===
# acled_api core, modelled in Dafny

This project models the pure core of `acled_api`, a Rust client for the ACLED
tabular query API. The model covers three parts:

- **Filter encoding.** A per-field constraint `Where<T>` becomes query
  parameters. `Unspecified` gives nothing. `Matches(v)` gives `name=v`. Every
  other variant gives an operator pair `name_where=op` and then the value
  pair. Scalars render through `AsParameter`: strings verbatim, `u32`/`u64`
  in decimal, dates as `YYYY-MM-DD`, and regions as their numeric code. Each
  endpoint's query concatenates its fields' encodings in a fixed order.
- **Response envelope and record conversion.** A page arrives as a decoded
  envelope, either `Data` or `Error`. `Response::into` asserts the envelope's
  integrity (a failed assertion is a panic, kept distinct from an `Err`). It
  then converts every raw record, stopping at the first failure, or it
  surfaces the API's error message. The endpoint converters parse their text
  fields in a fixed order and report the first field that does not parse.
- **Pagination.** `get_acled` and `get_deleted` request page after page. Each
  request carries the query's parameters, then `key`, `email` and, past page
  1, `page`. The loop stops at the first page whose length is not 5000.

Modules follow the source: `Numbers` covers decimal rendering and Rust's
`u64` parsing. `Dates` covers chrono's date display and `%Y-%m-%d` parsing.
`Regions` is `region.rs`. `Filters` covers `Where` and `AsParameter` from
`lib.rs`. `Errors` is the library's `Error`. `Acled` and `Deleted` are the
two endpoint files. `Responses` is `response.rs`. `Client` is the `Api`
request loop. `Wrappers` holds `Option` and `Result`.

The transport is a parameter: a sequence of replies, where reply `i` answers
the request for page `i + 1`. Each reply is a decoded envelope or a failure
(`Failed`, which becomes `ReqwestError`). If the loop would ask for a page
beyond the given replies, the run ends as `Unfinished`.

Two behaviours of the code are easy to misread, and the model follows the code in both:

- The loop stops when a page's length is *not equal* to 5000
  (`src/lib.rs:170`), not only when it is shorter. A page longer than the
  limit therefore also ends the fetch.
- A body that matches neither envelope shape fails inside `.json()`
  (`src/lib.rs:164`). That is a `ReqwestError`, an ordinary `Err`, not a
  hard abort. Only the integrity `assert!`s of `Response::into` panic.
  Such bodies are modelled as `Reply.Failed`.

## Model

| member | source | states |
|---|---|---|
| `Numbers.Render` | src/lib.rs:48-57 | the decimal text of an integer is non-empty, all digits, and has no leading zero; it starts with `0` exactly for zero |
| `Numbers.ParseU64` | src/deleted.rs:55-58 | `u64` parsing rejects the empty string, a lone `+`, and any leading `-`; whatever it accepts is one optional `+` followed only by digits, so `"++5"` and `"0+5"` are rejected |
| `Numbers.ParseRenderU64` | src/acled.rs:101-104 | parsing the decimal rendering of any `u64` gives that value back |
| `Numbers.ParsedIsCanonical` | src/acled.rs:101-104 | when the text has no sign and no leading zero, a successful parse renders back to exactly that text |
| `Numbers.ParsePlusSign` | src/deleted.rs:55-58 | one leading `+` before unsigned digits changes nothing: `"+"+s` parses exactly as `s` does |
| `Numbers.ParseLeadingZero` | src/deleted.rs:55-58 | a leading `0` changes nothing: `"0"+s` parses exactly as `s` does, so zero-padded timestamps are accepted |
| `Numbers.ValueOfRender` | src/lib.rs:53-57 | the digits `to_string` writes denote the number rendered |
| `Dates.RenderDate` | src/lib.rs:38-42 | a date with a four-digit year renders as ten characters, with `-` at positions 4 and 7 |
| `Dates.ParseDate` | src/acled.rs:99-100 | a successfully parsed date is a valid calendar day with a year from 0 to 9999 |
| `Dates.ParseRenderDate` | src/acled.rs:99-100 | reading back the display form of any valid date with a four-digit year gives that date |
| `Dates.RenderParsedDate` | src/acled.rs:99-100 | only canonical `YYYY-MM-DD` text parses: rendering the parsed date reproduces the input |
| `Regions.Code` | src/region.rs:8-56 | every region code lies in {1,2,3,4,5,7,9,11,...,20} |
| `Regions.CodesDistinct` | src/region.rs:8-56 | two regions with the same code are the same region |
| `Regions.ParseRegion` | src/region.rs:7-55 | a successful parse returns the region whose display name is the input |
| `Regions.ParseName` | src/region.rs:7-55 | parsing a region's display name returns that region |
| `Regions.NamesDistinct` | src/region.rs:7-55 | two regions with the same display name are the same region |
| `Regions.ParseRejectsNonNames` | src/acled.rs:107-110 | a string that is none of the 17 display names does not parse |
| `Regions.Name` | src/region.rs:7-55 | every display name is non-empty, starts with a capital letter and does not end in a blank |
| `Regions.RegionParameter` | src/region.rs:58-63 | a region's parameter text is the canonical decimal form of its numeric code: all digits, no leading zero, and it parses back to the code |
| `Regions.Examples` | src/region.rs:58-63 | `MiddleAfrica` renders as `"2"`; `"Middle Africa"` and `"Europe"` parse to their regions; the identifier `"MiddleAfrica"` does not parse |
| `Filters.Encode` | src/lib.rs:93-121 | at most two pairs; none exactly for `Unspecified`; two exactly when an explicit operator is used; keys are only `name` or `name_where`; the value pair comes last |
| `Filters.EncodeShapes` | src/lib.rs:95-119 | the exact output of each variant, with operators `=`, `LIKE`, `>`, `>=` and `BETWEEN`, the operator pair first, and range ends joined by `\|` |
| `Filters.SplitRange` | src/lib.rs:117 | splitting at the first `\|` gives two parts that join back to the input, the first part containing no `\|` |
| `Filters.DecodeEncode` | src/lib.rs:93-121 | decoding a field's parameters recovers the constraint, with operator and rendered values (ranges need a lower end without `\|`) |
| `Filters.EncodeInjective` | src/lib.rs:93-121 | with an injective rendering, different constraints on a field never produce the same parameters |
| `Filters.RangeSeparatorAmbiguity` | src/lib.rs:113-119 | `Between("a\|b","c")` and `Between("a","b\|c")` send identical parameters |
| `Filters.SelectFlatten` | src/acled.rs:42-49 | in a concatenation of field encodings under pairwise distinguishable names, a field's keys select exactly its own encoding |
| `Acled.AsParameters` | src/acled.rs:32-50 | every key emitted is one of the six field keys or its `_where` form |
| `Acled.SelectField` | src/acled.rs:42-49 | the parameters under each key (`country`, `event_id_cnty`, `year`, `region`, `event_date`, `timestamp`) are exactly that field's encoding, whatever the other fields hold |
| `Acled.DefaultQueryIsEmpty` | src/acled.rs:21-29 | the all-default query encodes to no parameters |
| `Acled.CountryExample` | src/acled.rs:132-139 | `country = Matches("Germany")` alone gives `[("country","Germany")]` |
| `Acled.IdExample` | src/acled.rs:141-148 | `id = Matches("GER-123")` alone gives `[("event_id_cnty","GER-123")]` |
| `Acled.StringFiltersVerbatim` | src/lib.rs:43-47 | for every string `s`, `country = Matches(s)` alone sends exactly `[("country", s)]` and `id = Equal(s)` alone sends `[("event_id_cnty_where", "="), ("event_id_cnty", s)]`: string values go out unescaped and untrimmed |
| `Acled.RegionAndDateExample` | src/acled.rs:150-162 | `MiddleAfrica` with `date > 2024-02-28` gives `region=2`, `event_date_where=>`, `event_date=2024-02-28`, in that order |
| `Acled.Convert` | src/acled.rs:96-123 | errors are always parse errors; on success `id`, `country`, `administrative_region`, `note` and `disorder_type` are copied, `event_type` is the pair of both type fields, and the date, timestamp, region and coordinates are what their raw texts parse to |
| `Acled.ConvertSucceedsIff` | src/acled.rs:96-123 | conversion succeeds exactly when all five parsed fields parse |
| `Acled.ConvertReportsFirstFailure` | src/acled.rs:97-121 | a failure names the first field, in the order `event_date`, `timestamp`, `region`, `latitude`, `longitude`, that does not parse; all earlier fields parse |
| `Deleted.AsParameters` | src/deleted.rs:24-31 | every key emitted belongs to `event_id_cnty` or `deleted_timestamp` |
| `Deleted.SelectField` | src/deleted.rs:27-30 | the id's parameters and the timestamp's parameters are each exactly that field's encoding |
| `Deleted.NoPlainTimestampKey` | src/deleted.rs:29 | no parameter is ever sent under the key `timestamp` |
| `Deleted.DefaultQueryIsEmpty` | src/deleted.rs:16-20 | the all-default query encodes to no parameters |
| `Deleted.Convert` | src/deleted.rs:52-60 | conversion succeeds exactly when `deleted_timestamp` parses as `u64`, and otherwise reports `ParseError("deleted_timestamp")`; on success the id is copied and the timestamp is the parsed value |
| `Deleted.ConvertRendered` | src/deleted.rs:55-58 | a record carrying the decimal text of a time converts to that time |
| `Responses.WellFormed` | src/response.rs:71-81 | an envelope passes the integrity assertions exactly when its success flag is set for a data envelope and clear for an error envelope, and its count is the number of records for data and zero for an error |
| `Responses.Collect` | src/response.rs:73 | success exactly when every record converts, and then the output is the element-wise conversion in order with the same length; a failure is the first failing record's error |
| `Responses.Into` | src/response.rs:64-87 | panics exactly when the envelope breaks its invariant, naming the first failed assertion; an error envelope yields `APIError` with its message; records are returned only from a data envelope, `count` of them, each the conversion of its raw record; a conversion failure is the first failing record's |
| `Responses.EmptyPage` | src/response.rs:66-73 | an empty data envelope with count 0 yields no records |
| `Responses.ErrorEnvelope` | src/response.rs:75-85 | `{success: false, count: 0, error}` yields `APIError` carrying the message |
| `Client.RequestParameters` | src/lib.rs:202-213 | the query's parameters come first and unchanged, then `key`, then `email`, then `page` only past page 1, and that value is the canonical decimal text of the page number: digits, no leading zero |
| `Client.Step` | src/lib.rs:162-165 | a transport failure becomes `ReqwestError` with its detail; one page panics exactly when its envelope breaks the integrity assertions; an error envelope gives `APIError` with its message; records come only from a data envelope, one per raw record, each the conversion of its raw record in order; a conversion failure is the first failing record's error |
| `Client.FirstStop` | src/lib.rs:170-172 | finds the first reply that is not a full page, with every earlier reply full |
| `Client.Paginate` | src/lib.rs:157-176 | the loop's result and request list equal the page-by-page description: stop at the first non-full page, return that page's failure or panic, or return all gathered records followed by its records |
| `Client.GatheredLength` | src/lib.rs:167-172 | `k` full pages contribute exactly `k * 5000` records |
| `Client.GatheredInOrder` | src/lib.rs:167 | page `j`'s records occupy positions `j*5000` up to `(j+1)*5000` of the accumulated records |
| `Client.SinglePage` | src/lib.rs:161-172 | a short first page gives exactly one request, with no `page` parameter, returning that page's records |
| `Client.TwoPages` | src/lib.rs:161-172 | a full then a short page gives exactly two requests, the second with `page=2`, returning both pages' records in order |
| `Client.FailureStops` | src/lib.rs:162-165 | an error on a page reached after full pages ends the fetch with that error, no records, and no further request |
| `Client.GetAcled` | src/lib.rs:157-176 | the `acled` fetch is the paginated run of the query's parameters with the event converter, and every request starts with the query's parameters |
| `Client.GetDeleted` | src/lib.rs:181-200 | the `deleted` fetch is the paginated run with the deletion converter, and every request starts with the query's parameters |

## Left out

- HTTP transport, URL building and percent-encoding (`Url::parse_with_params`, `reqwest::blocking::get`): these are I/O and a foreign library. Replies are given as a sequence instead.
- JSON deserialization of envelopes and raw records (serde, untagged): this is a foreign library. Envelopes are given already decoded. serde tries `Data` before `Error`, which is not modelled.
- Latitude and longitude parsing (`f64::from_str`): floating point is not modelled. The parser is a parameter `parseFloat: string -> Option<real>`, so only the fail-fast order is modelled.
- Dates.ParseDate: reads only the strict form: exactly four year digits, two month digits and two day digits. chrono's `%Y-%m-%d` also accepts 1 to 4 unsigned year digits or a signed year with more digits (`+12345-01-01`; an unsigned `12345-01-01` is rejected), one- or two-digit months and days (`2024-2-8`), and blanks before numbers. None of that is modelled. `Acled.Convert`'s promise that the date renders back to `event_date` therefore holds only for text in the strict form.
- Dates.Valid: does not bound the year to chrono's supported range. Any integer year counts as a valid day.
- Client.Paginate: the page counter is an unbounded `nat`. The `u32` counter in the source would overflow after 2^32 - 1 full pages, and that is not modelled.
- Client.Paginate: a server that keeps returning full pages makes the source loop forever. The model represents this as `Unfinished` when the given replies run out.
- Error messages (`thiserror` formatting), `Configuration` plumbing, and the base URL in `Api::new`: these are plumbing.

=== FILE: acled.dfy ===
/**
 * The `acled` endpoint: its query filters and the conversion of a raw
 * event, whose every field arrives as text, into a typed event.
 */
module Acled {
  import opened Wrappers
  import opened Numbers
  import opened Dates
  import opened Regions
  import opened Filters
  import opened Errors

  /** Filters of the `acled` endpoint; every field may stay `Unspecified`. */
  datatype AcledQuery = AcledQuery(
    country: Where<string>,
    id: Where<string>,
    year: Where<u32>,
    region: Where<Region>,
    date: Where<NaiveDate>,
    timestamp: Where<u64>
  )

  /** The all-`Unspecified` query (`AcledQuery::default()`). */
  const DefaultQuery: AcledQuery :=
    AcledQuery(Unspecified, Unspecified, Unspecified, Unspecified, Unspecified, Unspecified)

  /** The parameter name of each query field, in encoding order. */
  const CountryKey := "country"
  const IdKey := "event_id_cnty"
  const YearKey := "year"
  const RegionKey := "region"
  const DateKey := "event_date"
  const TimestampKey := "timestamp"

  predicate AcledKey(k: string) {
    k in {CountryKey, IdKey, YearKey, RegionKey, DateKey, TimestampKey}
  }

  /** `AcledQuery::as_parameters`: the fields' encodings, one after the other. */
  function AsParameters(q: AcledQuery): (ps: seq<Param>)
    ensures forall i :: 0 <= i < |ps| ==> AcledKey(ps[i].0) || (exists k :: AcledKey(k) && ps[i].0 == WhereKey(k))
  {
    Encode(q.country, CountryKey, Verbatim)
    + Encode(q.id, IdKey, Verbatim)
    + Encode(q.year, YearKey, RenderU32)
    + Encode(q.region, RegionKey, RegionParameter)
    + Encode(q.date, DateKey, RenderDate)
    + Encode(q.timestamp, TimestampKey, RenderU64)
  }

  /** Field names in encoding order. */
  const Keys: seq<string> := [CountryKey, IdKey, YearKey, RegionKey, DateKey, TimestampKey]

  /** Each field's encoding, in the order of `Keys`. */
  function Parts(q: AcledQuery): seq<seq<Param>> {
    [ Encode(q.country, CountryKey, Verbatim),
      Encode(q.id, IdKey, Verbatim),
      Encode(q.year, YearKey, RenderU32),
      Encode(q.region, RegionKey, RegionParameter),
      Encode(q.date, DateKey, RenderDate),
      Encode(q.timestamp, TimestampKey, RenderU64) ]
  }

  lemma AsParametersFlatten(q: AcledQuery)
    ensures AsParameters(q) == Flatten(Parts(q))
  {
    var p := Parts(q);
    FlattenSix(p[0], p[1], p[2], p[3], p[4], p[5]);
    assert p == [p[0], p[1], p[2], p[3], p[4], p[5]];
  }

  lemma KeysDistinguishable()
    ensures forall j, k :: 0 <= j < |Keys| && 0 <= k < |Keys| && j != k ==> Distinguishable(Keys[k], Keys[j])
  {
    // the two pairs of equal length differ in their first letter
    assert WhereKey(CountryKey)[0] != IdKey[0];
    assert WhereKey(YearKey)[0] != DateKey[0];
  }

  /**
   * Every field's constraint can be picked back out of the full parameter
   * list: the parameters under that field's keys are exactly its encoding,
   * whatever the other fields hold.
   */
  lemma SelectField(q: AcledQuery)
    ensures Select(AsParameters(q), CountryKey) == Encode(q.country, CountryKey, Verbatim)
    ensures Select(AsParameters(q), IdKey) == Encode(q.id, IdKey, Verbatim)
    ensures Select(AsParameters(q), YearKey) == Encode(q.year, YearKey, RenderU32)
    ensures Select(AsParameters(q), RegionKey) == Encode(q.region, RegionKey, RegionParameter)
    ensures Select(AsParameters(q), DateKey) == Encode(q.date, DateKey, RenderDate)
    ensures Select(AsParameters(q), TimestampKey) == Encode(q.timestamp, TimestampKey, RenderU64)
  {
    var parts := Parts(q);
    AsParametersFlatten(q);
    KeysDistinguishable();
    forall k | 0 <= k < |Keys|
      ensures Select(AsParameters(q), Keys[k]) == parts[k]
    {
      SelectFlatten(parts, Keys, k);
    }
    assert Keys[0] == CountryKey && Keys[1] == IdKey && Keys[2] == YearKey;
    assert Keys[3] == RegionKey && Keys[4] == DateKey && Keys[5] == TimestampKey;
  }

  /** A query without constraints adds no parameters. */
  lemma DefaultQueryIsEmpty()
    ensures AsParameters(DefaultQuery) == []
  {
  }

  /** The expected parameter lists of the crate's own query test. */
  lemma CountryExample()
    ensures AsParameters(DefaultQuery.(country := Matches("Germany"))) == [("country", "Germany")]
  {
  }

  lemma IdExample()
    ensures AsParameters(DefaultQuery.(id := Matches("GER-123"))) == [("event_id_cnty", "GER-123")]
  {
  }

  /**
   * String filters are sent as written, for every string: a plain match
   * becomes one pair, an explicit `=` adds the operator pair first.
   */
  lemma StringFiltersVerbatim(s: string)
    ensures AsParameters(DefaultQuery.(country := Matches(s))) == [("country", s)]
    ensures AsParameters(DefaultQuery.(id := Equal(s))) == [("event_id_cnty_where", "="), ("event_id_cnty", s)]
  {
    assert WhereKey(IdKey) == "event_id_cnty_where";
  }

  lemma RegionAndDateExample()
    ensures AsParameters(DefaultQuery.(region := Matches(MiddleAfrica),
                                       date := GreaterThan(Date(2024, 2, 28))))
         == [("region", "2"), ("event_date_where", ">"), ("event_date", "2024-02-28")]
  {
    var date: NaiveDate := Date(2024, 2, 28);
    assert TwoDigits(20) == "20" && TwoDigits(24) == "24";
    assert FourDigits(2024) == "2024";
    assert TwoDigits(2) == "02" && TwoDigits(28) == "28";
    assert RenderDate(date) == "2024-02-28";
    assert RegionParameter(MiddleAfrica) == "2";
    assert Encode(Matches(MiddleAfrica), RegionKey, RegionParameter) == [("region", "2")];
    assert WhereKey(DateKey) == "event_date_where";
    assert ValueText(GreaterThan(date), RenderDate) == "2024-02-28";
    assert Encode(GreaterThan(date), DateKey, RenderDate)
        == [("event_date_where", ">"), ("event_date", "2024-02-28")];
  }

  /** An event as the API sends it: every field is text. */
  datatype AcledData = AcledData(
    event_id_cnty: string,
    event_date: string,
    timestamp: string,
    disorder_type: string,
    event_type: string,
    sub_event_type: string,
    country: string,
    region: string,
    admin1: string,
    latitude: string,
    longitude: string,
    notes: string
  )

  /** A typed event. */
  datatype AcledEvent = AcledEvent(
    id: string,
    timestamp: u64,
    date: NaiveDate,
    event_type: (string, string),
    disorder_type: string,
    region: Region,
    country: string,
    administrative_region: string,
    latitude: real,
    longitude: real,
    note: string
  )

  /** The raw fields that conversion parses rather than copies. */
  datatype ParsedField = EventDate | Timestamp | RegionName | Latitude | Longitude

  /** The name a parse error reports for a field. */
  function FieldName(f: ParsedField): string {
    match f
    case EventDate => "event_date"
    case Timestamp => "timestamp"
    case RegionName => "region"
    case Latitude => "latitude"
    case Longitude => "longitude"
  }

  /** The order in which conversion parses the fields. */
  const ParseOrder: seq<ParsedField> := [EventDate, Timestamp, RegionName, Latitude, Longitude]

  /** Whether raw field `f` reads as its typed value. */
  predicate FieldParses(d: AcledData, parseFloat: string -> Option<real>, f: ParsedField) {
    match f
    case EventDate => ParseDate(d.event_date).Some?
    case Timestamp => ParseU64(d.timestamp).Some?
    case RegionName => ParseRegion(d.region).Some?
    case Latitude => parseFloat(d.latitude).Some?
    case Longitude => parseFloat(d.longitude).Some?
  }

  /**
   * `AcledEvent::try_from`: parses the date, timestamp, region, latitude and
   * longitude in that order, stopping at the first that does not read, and
   * copies the remaining text fields.
   */
  function Convert(d: AcledData, parseFloat: string -> Option<real>): (r: Outcome<AcledEvent>)
    ensures r.Err? ==> r.error.ParseError?
    ensures r.Ok? ==> var e := r.value;
                      && e.id == d.event_id_cnty
                      && e.country == d.country
                      && e.administrative_region == d.admin1
                      && e.note == d.notes
                      && e.disorder_type == d.disorder_type
                      && e.event_type == (d.event_type, d.sub_event_type)
    ensures r.Ok? ==> var e := r.value;
                      && RenderDate(e.date) == d.event_date
                      && ParseU64(d.timestamp) == Some(e.timestamp)
                      && Name(e.region) == d.region
                      && parseFloat(d.latitude) == Some(e.latitude)
                      && parseFloat(d.longitude) == Some(e.longitude)
  {
    match ParseDate(d.event_date)
    case None => Err(ParseError("event_date"))
    case Some(date) =>
      RenderParsedDate(d.event_date, date);
      match ParseU64(d.timestamp)
      case None => Err(ParseError("timestamp"))
      case Some(timestamp) =>
        match ParseRegion(d.region)
        case None => Err(ParseError("region"))
        case Some(region) =>
          match parseFloat(d.latitude)
          case None => Err(ParseError("latitude"))
          case Some(latitude) =>
            match parseFloat(d.longitude)
            case None => Err(ParseError("longitude"))
            case Some(longitude) =>
              Ok(AcledEvent(
                   d.event_id_cnty, timestamp, date, (d.event_type, d.sub_event_type),
                   d.disorder_type, region, d.country, d.admin1, latitude, longitude, d.notes))
  }

  /** Conversion succeeds exactly when every parsed field reads. */
  lemma ConvertSucceedsIff(d: AcledData, parseFloat: string -> Option<real>)
    ensures Convert(d, parseFloat).Ok? <==> forall f :: FieldParses(d, parseFloat, f)
  {
    if !Convert(d, parseFloat).Ok? {
      var f :| f in ParseOrder && !FieldParses(d, parseFloat, f);
    }
  }

  /**
   * Fail-fast: a failed conversion names the first field, in parse order,
   * that does not read; every earlier field did read.
   */
  lemma ConvertReportsFirstFailure(d: AcledData, parseFloat: string -> Option<real>)
    requires Convert(d, parseFloat).Err?
    ensures exists i :: 0 <= i < |ParseOrder|
                        && Convert(d, parseFloat).error == ParseError(FieldName(ParseOrder[i]))
                        && !FieldParses(d, parseFloat, ParseOrder[i])
                        && forall j :: 0 <= j < i ==> FieldParses(d, parseFloat, ParseOrder[j])
  {
    var r := Convert(d, parseFloat);
    var i: nat;
    if !FieldParses(d, parseFloat, EventDate) {
      i := 0;
    } else if !FieldParses(d, parseFloat, Timestamp) {
      i := 1;
    } else if !FieldParses(d, parseFloat, RegionName) {
      i := 2;
    } else if !FieldParses(d, parseFloat, Latitude) {
      i := 3;
    } else {
      i := 4;
    }
    assert r.error == ParseError(FieldName(ParseOrder[i]));
    assert !FieldParses(d, parseFloat, ParseOrder[i]);
    assert forall j :: 0 <= j < i ==> FieldParses(d, parseFloat, ParseOrder[j]);
  }
}

=== FILE: client.dfy ===
/**
 * The client's request loop: assembling each request's parameters and
 * following pages until the API returns one that is not full.
 *
 * The HTTP exchange is not modelled. Instead the replies the server would
 * give to the successive page requests are a given sequence: reply `i`
 * answers the request for page `i + 1`.
 */
module Client {
  import opened Wrappers
  import opened Numbers
  import opened Filters
  import opened Errors
  import opened Responses
  import Acled
  import Deleted

  /** The API's default row limit: a page with exactly this many records may be followed by more. */
  const DefaultLimit: nat := 5000

  /** The credentials sent with every request. */
  datatype Configuration = Configuration(key: string, email: string)

  /**
   * `Api::query`'s parameters: the query's own, then the credentials, then
   * the page number when it is past the first.
   */
  function RequestParameters(parameters: seq<Param>, config: Configuration, page: nat): (ps: seq<Param>)
    ensures |ps| == |parameters| + (if page > 1 then 3 else 2)
    ensures ps[..|parameters|] == parameters
    ensures ps[|parameters|] == ("key", config.key)
    ensures ps[|parameters| + 1] == ("email", config.email)
    ensures page > 1 ==> var p := ps[|parameters| + 2];
                         p.0 == "page" && AllDigits(p.1) && |p.1| >= 1 && p.1[0] != '0' && Value(p.1) == page
  {
    ValueOfRender(page);
    parameters + [("key", config.key), ("email", config.email)]
    + (if page > 1 then [("page", Render(page))] else [])
  }

  /** One reply from the transport: a decoded envelope, or a failed exchange or decoding. */
  datatype Reply<R> = Body(response: Response<R>) | Failed(detail: string)

  /** How a fetch ends. */
  datatype Run<S> =
    | Finished(result: Outcome<seq<S>>)
    | Aborted(failed: Assertion)   // an envelope assertion panicked
    | Unfinished                   // the loop wanted a page beyond the given replies

  /** What one page's reply turns into: its records, an error, or a panic. */
  function Step<R, S>(reply: Reply<R>, convert: R -> Outcome<S>): (c: Checked<seq<S>>)
    ensures reply.Failed? ==> c == Returned(Err(ReqwestError(reply.detail)))
    ensures c.Panicked? <==> reply.Body? && !WellFormed(reply.response)
    ensures reply.Body? && reply.response.Error? && c.Returned? ==>
              c.result == Err(APIError(reply.response.error.message))
    ensures c.Returned? && c.result.Ok? ==>
              reply.Body?
              && reply.response.Data?
              && |c.result.value| == |reply.response.data|
              && forall i :: 0 <= i < |reply.response.data| ==> convert(reply.response.data[i]) == Ok(c.result.value[i])
    ensures reply.Body? && reply.response.Data? && c.Returned? && c.result.Err? ==>
              exists i :: 0 <= i < |reply.response.data|
                          && convert(reply.response.data[i]) == Err(c.result.error)
                          && forall j :: 0 <= j < i ==> convert(reply.response.data[j]).Ok?
  {
    match reply
    case Failed(detail) => Returned(Err(ReqwestError(detail)))
    case Body(response) => Into(response, convert)
  }

  /** A page after which the loop asks for the next one. */
  predicate FullPage<R, S>(reply: Reply<R>, convert: R -> Outcome<S>) {
    var c := Step(reply, convert);
    c.Returned? && c.result.Ok? && |c.result.value| == DefaultLimit
  }

  /** The index of the first reply that is not a full page, if any. */
  function FirstStop<R, S>(replies: seq<Reply<R>>, convert: R -> Outcome<S>): (k: Option<nat>)
    ensures k.Some? ==> k.value < |replies| && !FullPage(replies[k.value], convert)
                        && forall j :: 0 <= j < k.value ==> FullPage(replies[j], convert)
    ensures k.None? ==> forall j :: 0 <= j < |replies| ==> FullPage(replies[j], convert)
  {
    if |replies| == 0 then None
    else if !FullPage(replies[0], convert) then Some(0)
    else match FirstStop(replies[1..], convert)
      case None => None
      case Some(k) => Some(k + 1)
  }

  /** The records of the first `k` replies, all full pages, in order. */
  function Gathered<R, S>(replies: seq<Reply<R>>, convert: R -> Outcome<S>, k: nat): (all: seq<S>)
    requires k <= |replies|
    requires forall j :: 0 <= j < k ==> FullPage(replies[j], convert)
  {
    if k == 0 then []
    else
      assert FullPage(replies[k - 1], convert);
      Gathered(replies, convert, k - 1) + Step(replies[k - 1], convert).result.value
  }

  /** The requests for pages 1 to n. */
  function Requests(parameters: seq<Param>, config: Configuration, n: nat): (rs: seq<seq<Param>>)
    ensures |rs| == n
    ensures forall i :: 0 <= i < n ==> rs[i] == RequestParameters(parameters, config, i + 1)
  {
    if n == 0 then [] else Requests(parameters, config, n - 1) + [RequestParameters(parameters, config, n)]
  }

  /**
   * The fetch described page by page: the loop stops at the first reply
   * that is not a full page; a failure there ends it with that failure,
   * records there complete the pages gathered before it.
   */
  function Expected<R, S>(parameters: seq<Param>, config: Configuration,
                          replies: seq<Reply<R>>, convert: R -> Outcome<S>): (Run<S>, seq<seq<Param>>)
  {
    match FirstStop(replies, convert)
    case None => (Unfinished, Requests(parameters, config, |replies|))
    case Some(k) =>
      var run := match Step(replies[k], convert)
        case Panicked(a) => Aborted(a)
        case Returned(Err(e)) => Finished(Err(e))
        case Returned(Ok(events)) => Finished(Ok(Gathered(replies, convert, k) + events));
      (run, Requests(parameters, config, k + 1))
  }

  /**
   * The loop of `get_acled` and `get_deleted`: request page after page,
   * appending each page's records, until a page's length is not the
   * default limit; any error or panic ends the fetch without records.
   */
  method Paginate<R, S>(parameters: seq<Param>, config: Configuration,
                        replies: seq<Reply<R>>, convert: R -> Outcome<S>)
    returns (run: Run<S>, requests: seq<seq<Param>>)
    ensures (run, requests) == Expected(parameters, config, replies, convert)
  {
    var all: seq<S> := [];
    var page: nat := 1;
    requests := [];
    while true
      invariant 1 <= page <= |replies| + 1
      invariant forall j :: 0 <= j < page - 1 ==> FullPage(replies[j], convert)
      invariant all == Gathered(replies, convert, page - 1)
      invariant requests == Requests(parameters, config, page - 1)
      decreases |replies| - page
    {
      if page > |replies| {
        NoStop(replies, convert);
        return Unfinished, requests;
      }
      requests := requests + [RequestParameters(parameters, config, page)];
      assert requests == Requests(parameters, config, page);
      var reply := replies[page - 1];
      match Step(reply, convert) {
        case Panicked(a) =>
          StopAt(replies, convert, page - 1);
          return Aborted(a), requests;
        case Returned(Err(e)) =>
          StopAt(replies, convert, page - 1);
          return Finished(Err(e)), requests;
        case Returned(Ok(events)) =>
          if |events| != DefaultLimit {
            StopAt(replies, convert, page - 1);
            return Finished(Ok(all + events)), requests;
          }
          all := all + events;
      }
      page := page + 1;
    }
  }

  lemma StopAt<R, S>(replies: seq<Reply<R>>, convert: R -> Outcome<S>, k: nat)
    requires k < |replies| && !FullPage(replies[k], convert)
    requires forall j :: 0 <= j < k ==> FullPage(replies[j], convert)
    ensures FirstStop(replies, convert) == Some(k)
  {
  }

  lemma NoStop<R, S>(replies: seq<Reply<R>>, convert: R -> Outcome<S>)
    requires forall j :: 0 <= j < |replies| ==> FullPage(replies[j], convert)
    ensures FirstStop(replies, convert) == None
  {
  }

  /** The records gathered from `k` full pages number `k` times the limit. */
  lemma {:induction false} GatheredLength<R, S>(replies: seq<Reply<R>>, convert: R -> Outcome<S>, k: nat)
    requires k <= |replies|
    requires forall j :: 0 <= j < k ==> FullPage(replies[j], convert)
    ensures |Gathered(replies, convert, k)| == k * DefaultLimit
  {
    if k > 0 {
      GatheredLength(replies, convert, k - 1);
    }
  }

  /** Page `j`'s records occupy their own block of the gathered records, in page order. */
  lemma {:induction false} GatheredInOrder<R, S>(replies: seq<Reply<R>>, convert: R -> Outcome<S>, k: nat, j: nat)
    requires k <= |replies|
    requires forall i :: 0 <= i < k ==> FullPage(replies[i], convert)
    requires j < k
    ensures j * DefaultLimit + DefaultLimit <= |Gathered(replies, convert, k)|
    ensures Gathered(replies, convert, k)[j * DefaultLimit .. j * DefaultLimit + DefaultLimit]
            == Step(replies[j], convert).result.value
  {
    GatheredLength(replies, convert, k);
    GatheredLength(replies, convert, k - 1);
    if j < k - 1 {
      GatheredInOrder(replies, convert, k - 1, j);
      var prev := Gathered(replies, convert, k - 1);
      assert Gathered(replies, convert, k)[..|prev|] == prev;
      assert (j + 1) * DefaultLimit <= (k - 1) * DefaultLimit;
    } else {
      assert FullPage(replies[j], convert);
    }
  }

  /** A short first page ends the fetch after one request, without a page parameter. */
  lemma SinglePage<R, S>(parameters: seq<Param>, config: Configuration,
                         replies: seq<Reply<R>>, convert: R -> Outcome<S>, events: seq<S>)
    requires |replies| >= 1
    requires Step(replies[0], convert) == Returned(Ok(events)) && |events| != DefaultLimit
    ensures Expected(parameters, config, replies, convert)
            == (Finished(Ok(events)), [parameters + [("key", config.key), ("email", config.email)]])
  {
    StopAt(replies, convert, 0);
    assert Requests(parameters, config, 1) == [RequestParameters(parameters, config, 1)];
    assert RequestParameters(parameters, config, 1) == parameters + [("key", config.key), ("email", config.email)];
    assert Gathered(replies, convert, 0) + events == events;
  }

  /**
   * A full first page and a short second page: two requests, the second
   * asking for page 2, and both pages' records in order.
   */
  lemma TwoPages<R, S>(parameters: seq<Param>, config: Configuration,
                       replies: seq<Reply<R>>, convert: R -> Outcome<S>, first: seq<S>, second: seq<S>)
    requires |replies| >= 2
    requires Step(replies[0], convert) == Returned(Ok(first)) && |first| == DefaultLimit
    requires Step(replies[1], convert) == Returned(Ok(second)) && |second| != DefaultLimit
    ensures var (run, requests) := Expected(parameters, config, replies, convert);
            && run == Finished(Ok(first + second))
            && |requests| == 2
            && requests[1] == parameters + [("key", config.key), ("email", config.email), ("page", "2")]
  {
    StopAt(replies, convert, 1);
    assert Gathered(replies, convert, 1) == first;
    assert Render(2) == "2";
  }

  /**
   * A failure on a page reached after full pages ends the fetch with that
   * error, without records and without requesting further pages.
   */
  lemma FailureStops<R, S>(parameters: seq<Param>, config: Configuration,
                           replies: seq<Reply<R>>, convert: R -> Outcome<S>, k: nat, e: Error)
    requires k < |replies|
    requires forall j :: 0 <= j < k ==> FullPage(replies[j], convert)
    requires Step(replies[k], convert) == Returned(Err(e))
    ensures Expected(parameters, config, replies, convert).0 == Finished(Err(e))
    ensures |Expected(parameters, config, replies, convert).1| == k + 1
  {
    StopAt(replies, convert, k);
  }

  /** The converter of the `acled` endpoint, with the float parser it relies on. */
  function AcledConverter(parseFloat: string -> Option<real>): Acled.AcledData -> Outcome<Acled.AcledEvent> {
    d => Acled.Convert(d, parseFloat)
  }

  /** The converter of the `deleted` endpoint. */
  function DeletedConverter(): Deleted.DeletedData -> Outcome<Deleted.DeletedEvent> {
    Deleted.Convert
  }

  /** `Api::get_acled`: every page request carries the query's parameters first. */
  method GetAcled(query: Acled.AcledQuery, config: Configuration,
                  replies: seq<Reply<Acled.AcledData>>, parseFloat: string -> Option<real>)
    returns (run: Run<Acled.AcledEvent>, requests: seq<seq<Param>>)
    ensures (run, requests) == Expected(Acled.AsParameters(query), config, replies, AcledConverter(parseFloat))
    ensures forall i :: 0 <= i < |requests| ==>
              requests[i][..|Acled.AsParameters(query)|] == Acled.AsParameters(query)
  {
    run, requests := Paginate(Acled.AsParameters(query), config, replies, AcledConverter(parseFloat));
  }

  /** `Api::get_deleted`: every page request carries the query's parameters first. */
  method GetDeleted(query: Deleted.DeletedQuery, config: Configuration,
                    replies: seq<Reply<Deleted.DeletedData>>)
    returns (run: Run<Deleted.DeletedEvent>, requests: seq<seq<Param>>)
    ensures (run, requests) == Expected(Deleted.AsParameters(query), config, replies, DeletedConverter())
    ensures forall i :: 0 <= i < |requests| ==>
              requests[i][..|Deleted.AsParameters(query)|] == Deleted.AsParameters(query)
  {
    run, requests := Paginate(Deleted.AsParameters(query), config, replies, DeletedConverter());
  }
}

=== FILE: dates.dfy ===
/**
 * Calendar dates as the library exchanges them: a date filter is rendered
 * with chrono's `NaiveDate` display form, and an event's `event_date` is
 * read back from `YYYY-MM-DD` text.
 */
module Dates {
  import opened Wrappers
  import opened Numbers

  /** A proleptic Gregorian date; `Valid` says it names a real day. */
  datatype Date = Date(year: int, month: nat, day: nat)

  predicate IsLeapYear(y: int) {
    y % 4 == 0 && (y % 100 != 0 || y % 400 == 0)
  }

  function DaysInMonth(y: int, m: nat): nat
    requires 1 <= m <= 12
  {
    if m == 2 then (if IsLeapYear(y) then 29 else 28)
    else if m == 4 || m == 6 || m == 9 || m == 11 then 30
    else 31
  }

  predicate Valid(d: Date) {
    1 <= d.month <= 12 && 1 <= d.day <= DaysInMonth(d.year, d.month)
  }

  /** chrono's `NaiveDate`: only valid days are representable. */
  type NaiveDate = d: Date | Valid(d) witness Date(1970, 1, 1)

  /** Two decimal digits, zero-padded: chrono's `write_hundreds`. */
  function TwoDigits(n: nat): (s: string)
    requires n < 100
    ensures |s| == 2 && AllDigits(s)
  {
    [DigitChar(n / 10), DigitChar(n % 10)]
  }

  /** Four decimal digits, zero-padded, as two pairs. */
  function FourDigits(n: nat): (s: string)
    requires n < 10000
    ensures |s| == 4 && AllDigits(s)
  {
    TwoDigits(n / 100) + TwoDigits(n % 100)
  }

  /**
   * The year part of the display form: four digits for years 0 to 9999,
   * otherwise an explicit sign followed by at least four digits.
   */
  function YearText(y: int): string {
    if 0 <= y <= 9999 then FourDigits(y)
    else
      var sign := if y < 0 then "-" else "+";
      var mag := if y < 0 then -y else y;
      sign + (if mag <= 9999 then FourDigits(mag) else Render(mag))
  }

  /** `NaiveDate`'s display form, which is also its `AsParameter` rendering. */
  function RenderDate(d: NaiveDate): (s: string)
    ensures 0 <= d.year <= 9999 ==> |s| == 10 && s[4] == '-' && s[7] == '-'
  {
    YearText(d.year) + "-" + TwoDigits(d.month) + "-" + TwoDigits(d.day)
  }

  /**
   * Strict `%Y-%m-%d` reading: four year digits, two month digits and two
   * day digits separated by `-`, naming a valid day.
   */
  function ParseDate(s: string): (r: Option<NaiveDate>)
    ensures r.Some? ==> 0 <= r.value.year <= 9999
  {
    if |s| == 10 && s[4] == '-' && s[7] == '-'
       && AllDigits(s[..4]) && AllDigits(s[5..7]) && AllDigits(s[8..])
    then
      var d := Date(Value(s[..4]), Value(s[5..7]), Value(s[8..]));
      FourDigitsOfValue(s[..4]);
      if Valid(d) then Some(d) else None
    else None
  }

  lemma ValueOfTwoDigits(n: nat)
    requires n < 100
    ensures Value(TwoDigits(n)) == n
  {
    var s := TwoDigits(n);
    ValueOfTwo(s);
    assert DigitValue(s[0]) == n / 10 && DigitValue(s[1]) == n % 10;
  }

  lemma ValueOfFourDigits(n: nat)
    requires n < 10000
    ensures Value(FourDigits(n)) == n
  {
    ValueConcat(TwoDigits(n / 100), TwoDigits(n % 100));
    assert Pow10(2) == 100;
    ValueOfTwoDigits(n / 100);
    ValueOfTwoDigits(n % 100);
  }

  lemma TwoDigitsOfValue(s: string)
    requires |s| == 2 && AllDigits(s)
    ensures Value(s) < 100 && TwoDigits(Value(s)) == s
  {
    ValueOfTwo(s);
    var v := Value(s);
    assert v / 10 == DigitValue(s[0]) && v % 10 == DigitValue(s[1]);
  }

  lemma FourDigitsOfValue(s: string)
    requires |s| == 4 && AllDigits(s)
    ensures Value(s) < 10000 && FourDigits(Value(s)) == s
  {
    var hi, lo := s[..2], s[2..];
    assert s == hi + lo;
    ValueConcat(hi, lo);
    assert Pow10(2) == 100;
    TwoDigitsOfValue(hi);
    TwoDigitsOfValue(lo);
    var v := Value(s);
    assert v == Value(hi) * 100 + Value(lo);
    assert v / 100 == Value(hi) && v % 100 == Value(lo);
  }

  /** Reading back the rendering of a date with a four-digit year gives that date. */
  lemma ParseRenderDate(d: NaiveDate)
    requires 0 <= d.year <= 9999
    ensures ParseDate(RenderDate(d)) == Some(d)
  {
    var s := RenderDate(d);
    assert s[..4] == FourDigits(d.year);
    assert s[5..7] == TwoDigits(d.month);
    assert s[8..] == TwoDigits(d.day);
    ValueOfFourDigits(d.year);
    ValueOfTwoDigits(d.month);
    ValueOfTwoDigits(d.day);
  }

  /** Only the canonical text of a date parses: rendering the result gives the input back. */
  lemma RenderParsedDate(s: string, d: NaiveDate)
    requires ParseDate(s) == Some(d)
    ensures RenderDate(d) == s
  {
    FourDigitsOfValue(s[..4]);
    TwoDigitsOfValue(s[5..7]);
    TwoDigitsOfValue(s[8..]);
    assert s == s[..4] + "-" + s[5..7] + "-" + s[8..];
  }
}

=== FILE: deleted.dfy ===
/**
 * The `deleted` endpoint: its query filters and the conversion of a raw
 * deletion record into a typed one.
 */
module Deleted {
  import opened Wrappers
  import opened Numbers
  import opened Filters
  import opened Errors

  /** Filters of the `deleted` endpoint; both may stay `Unspecified`. */
  datatype DeletedQuery = DeletedQuery(id: Where<string>, timestamp: Where<u64>)

  /** The all-`Unspecified` query (`DeletedQuery::default()`). */
  const DefaultQuery: DeletedQuery := DeletedQuery(Unspecified, Unspecified)

  const IdKey := "event_id_cnty"
  /** The timestamp filter is sent under the deletion time's name, not `timestamp`. */
  const TimestampKey := "deleted_timestamp"

  /** `DeletedQuery::as_parameters`: the id's encoding, then the timestamp's. */
  function AsParameters(q: DeletedQuery): (ps: seq<Param>)
    ensures forall i :: 0 <= i < |ps| ==> KeyOf(ps[i], IdKey) || KeyOf(ps[i], TimestampKey)
  {
    Encode(q.id, IdKey, Verbatim) + Encode(q.timestamp, TimestampKey, RenderU64)
  }

  /** Each field's constraint is exactly the parameters under its own keys. */
  lemma SelectField(q: DeletedQuery)
    ensures Select(AsParameters(q), IdKey) == Encode(q.id, IdKey, Verbatim)
    ensures Select(AsParameters(q), TimestampKey) == Encode(q.timestamp, TimestampKey, RenderU64)
  {
    var parts := [Encode(q.id, IdKey, Verbatim), Encode(q.timestamp, TimestampKey, RenderU64)];
    var keys := [IdKey, TimestampKey];
    FlattenTwo(parts[0], parts[1]);
    SelectFlatten(parts, keys, 0);
    SelectFlatten(parts, keys, 1);
  }

  /** No filter is ever sent under the plain key `timestamp`. */
  lemma NoPlainTimestampKey(q: DeletedQuery)
    ensures forall i :: 0 <= i < |AsParameters(q)| ==> AsParameters(q)[i].0 != "timestamp"
  {
  }

  lemma DefaultQueryIsEmpty()
    ensures AsParameters(DefaultQuery) == []
  {
  }

  /** A deletion record as the API sends it. */
  datatype DeletedData = DeletedData(event_id_cnty: string, deleted_timestamp: string)

  /** A typed deletion record. */
  datatype DeletedEvent = DeletedEvent(id: string, timestamp: u64)

  /** `DeletedEvent::try_from`: copies the id and parses the deletion time. */
  function Convert(d: DeletedData): (r: Outcome<DeletedEvent>)
    ensures r.Ok? <==> ParseU64(d.deleted_timestamp).Some?
    ensures r.Err? ==> r.error == ParseError("deleted_timestamp")
    ensures r.Ok? ==> r.value.id == d.event_id_cnty
                      && ParseU64(d.deleted_timestamp) == Some(r.value.timestamp)
  {
    match ParseU64(d.deleted_timestamp)
    case None => Err(ParseError("deleted_timestamp"))
    case Some(t) => Ok(DeletedEvent(d.event_id_cnty, t))
  }

  /** A record carrying the decimal text of a deletion time converts back to that time. */
  lemma ConvertRendered(id: string, t: u64)
    ensures Convert(DeletedData(id, RenderU64(t))) == Ok(DeletedEvent(id, t))
  {
    ParseRenderU64(t);
  }
}

=== FILE: errors.dfy ===
/** The library's error type and the result type its fallible operations return. */
module Errors {
  import opened Wrappers

  datatype Error =
    /** The HTTP exchange failed, or its body did not decode as JSON of the expected shape. */
    | ReqwestError(detail: string)
    /** The API answered with its error envelope. */
    | APIError(message: string)
    /** The named field of a record did not parse. */
    | ParseError(field: string)

  type Outcome<T> = Result<T, Error>
}

=== FILE: filters.dfy ===
/**
 * Per-field filter constraints (`Where<T>`) and their encoding as query
 * parameters. A constraint on field `name` becomes nothing, a lone
 * `name=value` pair, or an operator pair `name_where=op` followed by the
 * value pair.
 */
module Filters {
  import opened Wrappers

  /** One query-string parameter, `(key, value)`. */
  type Param = (string, string)

  datatype Where<T> =
    | Unspecified
    | Matches(v: T)
    | Equal(v: T)
    | Like(v: T)
    | GreaterThan(v: T)
    | GreaterThanOrEqual(v: T)
    | Between(lo: T, hi: T)

  /** `AsParameter` for strings: the text itself. */
  function Verbatim(s: string): string {
    s
  }

  /** Separator between the two ends of a `BETWEEN` range. */
  const RangeSeparator: char := '|'

  function WhereKey(name: string): string {
    name + "_where"
  }

  /** The API's comparison operator for a variant, if it names one explicitly. */
  function Operator<T>(w: Where<T>): Option<string> {
    match w
    case Unspecified => None
    case Matches(_) => None
    case Equal(_) => Some("=")
    case Like(_) => Some("LIKE")
    case GreaterThan(_) => Some(">")
    case GreaterThanOrEqual(_) => Some(">=")
    case Between(_, _) => Some("BETWEEN")
  }

  /** The value text sent for a constraint, given how its scalars render. */
  function ValueText<T>(w: Where<T>, render: T -> string): string
    requires !w.Unspecified?
  {
    match w
    case Matches(v) => render(v)
    case Equal(v) => render(v)
    case Like(v) => render(v)
    case GreaterThan(v) => render(v)
    case GreaterThanOrEqual(v) => render(v)
    case Between(a, b) => render(a) + [RangeSeparator] + render(b)
  }

  /** `Where::as_parameters`: the parameters a constraint on field `name` contributes. */
  function Encode<T>(w: Where<T>, name: string, render: T -> string): (ps: seq<Param>)
    ensures |ps| <= 2
    ensures ps == [] <==> w.Unspecified?
    ensures |ps| == 2 <==> Operator(w).Some?
    ensures forall i :: 0 <= i < |ps| ==> ps[i].0 == name || ps[i].0 == WhereKey(name)
    ensures ps != [] ==> ps[|ps| - 1].0 == name
  {
    match Operator(w)
    case None =>
      if w.Unspecified? then [] else [(name, ValueText(w, render))]
    case Some(op) =>
      [(WhereKey(name), op), (name, ValueText(w, render))]
  }

  /** The constraint with each scalar replaced by its rendering. */
  function Rendered<T>(w: Where<T>, render: T -> string): Where<string> {
    match w
    case Unspecified => Unspecified
    case Matches(v) => Matches(render(v))
    case Equal(v) => Equal(render(v))
    case Like(v) => Like(render(v))
    case GreaterThan(v) => GreaterThan(render(v))
    case GreaterThanOrEqual(v) => GreaterThanOrEqual(render(v))
    case Between(a, b) => Between(render(a), render(b))
  }

  /** Splits at the first range separator. */
  function SplitRange(s: string): (r: Option<(string, string)>)
    ensures r.Some? ==> s == r.value.0 + [RangeSeparator] + r.value.1
    ensures r.Some? ==> RangeSeparator !in r.value.0
    ensures r.None? ==> RangeSeparator !in s
  {
    if |s| == 0 then None
    else if s[0] == RangeSeparator then Some(([], s[1..]))
    else match SplitRange(s[1..])
      case None => None
      case Some((a, b)) => Some(([s[0]] + a, b))
  }

  /**
   * Reads back the constraint a field's parameters express, in rendered
   * form; `None` when they are not a shape `Encode` produces.
   */
  function Decode(name: string, ps: seq<Param>): Option<Where<string>> {
    if |ps| == 0 then Some(Unspecified)
    else if |ps| == 1 then
      if ps[0].0 == name then Some(Matches(ps[0].1)) else None
    else if |ps| == 2 && ps[0].0 == WhereKey(name) && ps[1].0 == name then
      var op, v := ps[0].1, ps[1].1;
      if op == "=" then Some(Equal(v))
      else if op == "LIKE" then Some(Like(v))
      else if op == ">" then Some(GreaterThan(v))
      else if op == ">=" then Some(GreaterThanOrEqual(v))
      else if op == "BETWEEN" then
        match SplitRange(v)
        case None => None
        case Some((a, b)) => Some(Between(a, b))
      else None
    else None
  }

  /** A range whose lower end renders without the separator can be read back. */
  predicate Unambiguous<T>(w: Where<T>, render: T -> string) {
    w.Between? ==> RangeSeparator !in render(w.lo)
  }

  lemma {:induction false} SplitJoined(a: string, b: string)
    requires RangeSeparator !in a
    ensures SplitRange(a + [RangeSeparator] + b) == Some((a, b))
  {
    if |a| > 0 {
      assert (a + [RangeSeparator] + b)[1..] == a[1..] + [RangeSeparator] + b;
      SplitJoined(a[1..], b);
      assert [a[0]] + a[1..] == a;
    }
  }

  /**
   * Round trip: decoding a field's parameters recovers the constraint,
   * operator and rendered values alike.
   */
  lemma DecodeEncode<T>(w: Where<T>, name: string, render: T -> string)
    requires Unambiguous(w, render)
    ensures Decode(name, Encode(w, name, render)) == Some(Rendered(w, render))
  {
    assert WhereKey(name) != name by {
      assert |WhereKey(name)| == |name| + 6;
    }
    if w.Between? {
      SplitJoined(render(w.lo), render(w.hi));
    }
  }

  /** Two different constraints on the same field never produce the same parameters. */
  lemma EncodeInjective<T>(w1: Where<T>, w2: Where<T>, name: string, render: T -> string)
    requires Unambiguous(w1, render) && Unambiguous(w2, render)
    requires forall x, y :: render(x) == render(y) ==> x == y
    requires Encode(w1, name, render) == Encode(w2, name, render)
    ensures w1 == w2
  {
    DecodeEncode(w1, name, render);
    DecodeEncode(w2, name, render);
    assert Rendered(w1, render) == Rendered(w2, render);
  }

  /** Without that condition a range is ambiguous on the wire. */
  lemma RangeSeparatorAmbiguity()
    ensures Encode(Between("a|b", "c"), "country", s => s)
         == Encode(Between("a", "b|c"), "country", s => s)
  {
    assert "a|b" + [RangeSeparator] + "c" == "a" + [RangeSeparator] + "b|c";
  }

  /** The rendering of each variant, operator pair first. */
  lemma EncodeShapes<T>(w: Where<T>, name: string, render: T -> string)
    ensures w.Matches? ==> Encode(w, name, render) == [(name, render(w.v))]
    ensures w.Equal? ==> Encode(w, name, render) == [(name + "_where", "="), (name, render(w.v))]
    ensures w.Like? ==> Encode(w, name, render) == [(name + "_where", "LIKE"), (name, render(w.v))]
    ensures w.GreaterThan? ==> Encode(w, name, render) == [(name + "_where", ">"), (name, render(w.v))]
    ensures w.GreaterThanOrEqual? ==> Encode(w, name, render) == [(name + "_where", ">="), (name, render(w.v))]
    ensures w.Between? ==> Encode(w, name, render)
                           == [(name + "_where", "BETWEEN"), (name, render(w.lo) + "|" + render(w.hi))]
  {
  }

  /** Two field names whose parameters cannot be confused with each other's. */
  predicate Distinguishable(a: string, b: string) {
    a != b && a != WhereKey(b) && WhereKey(a) != b
  }

  predicate KeyOf(p: Param, name: string) {
    p.0 == name || p.0 == WhereKey(name)
  }

  /** The parameters of a list that belong to field `name`, in order. */
  function Select(ps: seq<Param>, name: string): (r: seq<Param>)
    ensures |r| <= |ps|
    ensures forall i :: 0 <= i < |r| ==> KeyOf(r[i], name)
  {
    if |ps| == 0 then []
    else (if KeyOf(ps[0], name) then [ps[0]] else []) + Select(ps[1..], name)
  }

  lemma {:induction false} SelectConcat(a: seq<Param>, b: seq<Param>, name: string)
    ensures Select(a + b, name) == Select(a, name) + Select(b, name)
  {
    if |a| > 0 {
      assert (a + b)[1..] == a[1..] + b;
      SelectConcat(a[1..], b, name);
    } else {
      assert a + b == b;
    }
  }

  lemma {:induction false} SelectAll(ps: seq<Param>, name: string)
    requires forall i :: 0 <= i < |ps| ==> KeyOf(ps[i], name)
    ensures Select(ps, name) == ps
  {
    if |ps| > 0 {
      SelectAll(ps[1..], name);
    }
  }

  lemma {:induction false} SelectNone(ps: seq<Param>, name: string)
    requires forall i :: 0 <= i < |ps| ==> !KeyOf(ps[i], name)
    ensures Select(ps, name) == []
  {
    if |ps| > 0 {
      SelectNone(ps[1..], name);
    }
  }

  lemma WhereKeyInjective(a: string, b: string)
    requires a != b
    ensures WhereKey(a) != WhereKey(b)
  {
    if |a| == |b| {
      assert WhereKey(a)[..|a|] == a;
      assert WhereKey(b)[..|b|] == b;
    } else {
      assert |WhereKey(a)| != |WhereKey(b)|;
    }
  }

  /** The parameter lists of several fields, one after the other. */
  function Flatten(parts: seq<seq<Param>>): seq<Param> {
    if |parts| == 0 then [] else parts[0] + Flatten(parts[1..])
  }

  lemma FlattenSix(a: seq<Param>, b: seq<Param>, c: seq<Param>, d: seq<Param>, e: seq<Param>, f: seq<Param>)
    ensures Flatten([a, b, c, d, e, f]) == a + b + c + d + e + f
  {
    FlattenTwo(e, f);
    FlattenCons(d, [e, f]);
    FlattenCons(c, [d, e, f]);
    FlattenCons(b, [c, d, e, f]);
    FlattenCons(a, [b, c, d, e, f]);
  }

  lemma FlattenCons(a: seq<Param>, rest: seq<seq<Param>>)
    ensures Flatten([a] + rest) == a + Flatten(rest)
  {
    assert ([a] + rest)[1..] == rest;
  }

  lemma FlattenTwo(a: seq<Param>, b: seq<Param>)
    ensures Flatten([a, b]) == a + b
  {
    assert [a, b][1..] == [b];
    assert Flatten([b]) == b by {
      assert [b][1..] == [];
    }
  }

  predicate Owned(ps: seq<Param>, name: string) {
    forall i :: 0 <= i < |ps| ==> KeyOf(ps[i], name)
  }

  /**
   * When each part belongs to its own field and the field names are
   * pairwise distinguishable, selecting field `names[k]` from the whole list
   * yields exactly part `k`.
   */
  lemma {:induction false} SelectFlatten(parts: seq<seq<Param>>, names: seq<string>, k: nat)
    requires |parts| == |names| && k < |names|
    requires forall j :: 0 <= j < |parts| ==> Owned(parts[j], names[j])
    requires forall j :: 0 <= j < |names| && j != k ==> Distinguishable(names[k], names[j])
    ensures Select(Flatten(parts), names[k]) == parts[k]
  {
    SelectConcat(parts[0], Flatten(parts[1..]), names[k]);
    if k == 0 {
      SelectAll(parts[0], names[k]);
      SelectNoneOfFlatten(parts[1..], names[1..], names[0]);
    } else {
      SelectOwnedNone(parts[0], names[0], names[k]);
      SelectFlatten(parts[1..], names[1..], k - 1);
    }
  }

  lemma SelectOwnedNone(ps: seq<Param>, owner: string, name: string)
    requires Owned(ps, owner) && Distinguishable(name, owner)
    ensures Select(ps, name) == []
  {
    WhereKeyInjective(name, owner);
    SelectNone(ps, name);
  }

  lemma {:induction false} SelectNoneOfFlatten(parts: seq<seq<Param>>, names: seq<string>, name: string)
    requires |parts| == |names|
    requires forall j :: 0 <= j < |parts| ==> Owned(parts[j], names[j])
    requires forall j :: 0 <= j < |names| ==> Distinguishable(name, names[j])
    ensures Select(Flatten(parts), name) == []
  {
    if |parts| > 0 {
      SelectConcat(parts[0], Flatten(parts[1..]), name);
      SelectOwnedNone(parts[0], names[0], name);
      SelectNoneOfFlatten(parts[1..], names[1..], name);
    }
  }
}

=== FILE: numbers.dfy ===
/**
 * Unsigned integers as the library uses them: `u32` and `u64` values rendered
 * as decimal text (their `AsParameter` rendering), and the standard
 * library's `str::parse::<u64>()` that reads a timestamp back.
 */
module Numbers {
  import opened Wrappers

  const U32_MAX: nat := 0xFFFF_FFFF
  const U64_MAX: nat := 0xFFFF_FFFF_FFFF_FFFF

  newtype u32 = x: int | 0 <= x <= U32_MAX
  newtype u64 = x: int | 0 <= x <= U64_MAX

  predicate IsDigit(c: char) {
    '0' <= c <= '9'
  }

  predicate AllDigits(s: string) {
    forall i :: 0 <= i < |s| ==> IsDigit(s[i])
  }

  function DigitChar(d: nat): (c: char)
    requires d < 10
    ensures IsDigit(c) && c as int - '0' as int == d
  {
    ('0' as int + d) as char
  }

  function DigitValue(c: char): (d: nat)
    requires IsDigit(c)
    ensures d < 10 && DigitChar(d) == c
  {
    (c as int - '0' as int) as nat
  }

  /** Shortest decimal text of `n`, as Rust's `to_string` writes it. */
  function Render(n: nat): (s: string)
    ensures |s| >= 1 && AllDigits(s)
    ensures |s| > 1 ==> s[0] != '0'
    ensures s[0] == '0' <==> n == 0
  {
    if n < 10 then [DigitChar(n)] else Render(n / 10) + [DigitChar(n % 10)]
  }

  /** The number a string of decimal digits denotes (leading zeros allowed). */
  function Value(s: string): nat
    requires AllDigits(s)
  {
    if |s| == 0 then 0 else Value(s[..|s| - 1]) * 10 + DigitValue(s[|s| - 1])
  }

  /**
   * Rust's `u64::from_str`: an optional leading `+`, then at least one decimal
   * digit, with a value that fits in 64 bits. No `-`, no blanks, no other sign.
   */
  function ParseU64(s: string): (r: Option<u64>)
    ensures r.Some? ==> |s| >= 1 && s[0] != '-'
    ensures s == "" || s == "+" ==> r.None?
    ensures r.Some? ==> var t := if s[0] == '+' then s[1..] else s; |t| >= 1 && AllDigits(t)
  {
    var digits := if |s| > 0 && s[0] == '+' then s[1..] else s;
    if |digits| == 0 || !AllDigits(digits) then None
    else if Value(digits) > U64_MAX then None
    else Some(Value(digits) as u64)
  }

  function RenderU32(x: u32): string {
    Render(x as nat)
  }

  function RenderU64(x: u64): string {
    Render(x as nat)
  }

  lemma {:induction false} ValueOfRender(n: nat)
    ensures Value(Render(n)) == n
  {
    if n >= 10 {
      var s := Render(n);
      assert s[..|s| - 1] == Render(n / 10);
      ValueOfRender(n / 10);
    }
  }

  /** Reading back the decimal text of any `u64` yields that value. */
  lemma ParseRenderU64(x: u64)
    ensures ParseU64(RenderU64(x)) == Some(x)
  {
    ValueOfRender(x as nat);
  }

  lemma {:induction false} RenderOfValue(s: string)
    requires |s| >= 1 && AllDigits(s) && (|s| > 1 ==> s[0] != '0')
    ensures Render(Value(s)) == s
  {
    if |s| > 1 {
      var p := s[..|s| - 1];
      RenderOfValue(p);
      ValueLowerBound(p);
      assert Value(s) / 10 == Value(p);
      assert Value(s) % 10 == DigitValue(s[|s| - 1]);
      assert s == p + [s[|s| - 1]];
    }
  }

  /** A digit string that does not start with `0` denotes a positive number. */
  lemma {:induction false} ValueLowerBound(s: string)
    requires |s| >= 1 && AllDigits(s) && s[0] != '0'
    ensures Value(s) >= 1
  {
    if |s| > 1 {
      ValueLowerBound(s[..|s| - 1]);
    } else {
      assert s[0] != '0';
    }
  }

  /**
   * Text without a sign and without a leading zero that parses is exactly
   * the canonical rendering of the parsed value.
   */
  lemma ParsedIsCanonical(s: string, x: u64)
    requires ParseU64(s) == Some(x)
    requires |s| >= 1 && s[0] != '+' && (|s| > 1 ==> s[0] != '0')
    ensures RenderU64(x) == s
  {
    RenderOfValue(s);
  }

  function Pow10(k: nat): (p: nat)
    ensures p >= 1
  {
    if k == 0 then 1 else 10 * Pow10(k - 1)
  }

  /** Digits denote positionally: a prefix's value scales by the length of what follows. */
  lemma {:induction false} ValueConcat(a: string, b: string)
    requires AllDigits(a) && AllDigits(b)
    ensures Value(a + b) == Value(a) * Pow10(|b|) + Value(b)
  {
    if |b| == 0 {
      assert a + b == a;
    } else {
      var b', d := b[..|b| - 1], DigitValue(b[|b| - 1]);
      var ab := a + b;
      assert ab[..|ab| - 1] == a + b';
      assert ab[|ab| - 1] == b[|b| - 1];
      ValueConcat(a, b');
      var va, vb', p := Value(a), Value(b'), Pow10(|b'|);
      assert Value(ab) == Value(a + b') * 10 + d;
      assert Value(b) == vb' * 10 + d;
      assert Pow10(|b|) == p * 10;
      assert (va * p + vb') * 10 + d == va * (p * 10) + (vb' * 10 + d) by {
        MulAssoc(va, p, 10);
      }
    }
  }

  lemma MulAssoc(x: int, y: int, z: int)
    ensures (x * y) * z == x * (y * z)
  {
  }

  lemma ValueOfTwo(s: string)
    requires |s| == 2 && AllDigits(s)
    ensures Value(s) == DigitValue(s[0]) * 10 + DigitValue(s[1])
  {
    var first := s[..1];
    assert first[..0] == [];
    assert Value(first) == DigitValue(s[0]);
    assert Value(s) == Value(first) * 10 + DigitValue(s[1]);
  }

  /** A leading `+` is accepted and changes nothing. */
  lemma ParsePlusSign(s: string)
    requires |s| >= 1 && s[0] != '+'
    ensures ParseU64("+" + s) == ParseU64(s)
  {
    assert ("+" + s)[1..] == s;
  }

  /** A leading zero is accepted and changes nothing. */
  lemma ParseLeadingZero(s: string)
    requires |s| >= 1 && s[0] != '+'
    ensures ParseU64("0" + s) == ParseU64(s)
  {
    if AllDigits(s) {
      ValueConcat("0", s);
      assert Value("0") == 0 by {
        assert "0"[..0] == [];
      }
    } else {
      var i :| 0 <= i < |s| && !IsDigit(s[i]);
      assert !IsDigit(("0" + s)[i + 1]);
    }
  }
}

=== FILE: regions.dfy ===
/**
 * The fixed set of world regions an event belongs to. Each region has a
 * numeric code, used in query strings, and a display name, used both for
 * printing and for reading the `region` field of an event.
 */
module Regions {
  import opened Wrappers
  import opened Numbers

  datatype Region =
    | WesternAfrica | MiddleAfrica | EasternAfrica | SouthernAfrica | NorthernAfrica
    | SouthAsia | SoutheastAsia | MiddleEast | Europe | CaucasusAndCentralAsia
    | CentralAmerica | SouthAmerica | Caribbean | EastAsia | NorthAmerica
    | Oceania | Antarctica

  /** The codes the API assigns; 6, 8 and 10 are not used. */
  const Codes: set<nat> := {1, 2, 3, 4, 5, 7, 9, 11, 12, 13, 14, 15, 16, 17, 18, 19, 20}

  /** The enum discriminant, i.e. the region's code. */
  function Code(r: Region): (c: nat)
    ensures c in Codes
  {
    match r
    case WesternAfrica => 1
    case MiddleAfrica => 2
    case EasternAfrica => 3
    case SouthernAfrica => 4
    case NorthernAfrica => 5
    case SouthAsia => 7
    case SoutheastAsia => 9
    case MiddleEast => 11
    case Europe => 12
    case CaucasusAndCentralAsia => 13
    case CentralAmerica => 14
    case SouthAmerica => 15
    case Caribbean => 16
    case EastAsia => 17
    case NorthAmerica => 18
    case Oceania => 19
    case Antarctica => 20
  }

  /** The display name; variants without an explicit name display as their identifier. */
  function Name(r: Region): (s: string)
    ensures |s| > 0 && 'A' <= s[0] <= 'Z' && s[|s| - 1] != ' '
  {
    match r
    case WesternAfrica => "Western Africa"
    case MiddleAfrica => "Middle Africa"
    case EasternAfrica => "Eastern Africa"
    case SouthernAfrica => "Southern Africa"
    case NorthernAfrica => "Northern Africa"
    case SouthAsia => "South Asia"
    case SoutheastAsia => "Southeast Asia"
    case MiddleEast => "Middle East"
    case Europe => "Europe"
    case CaucasusAndCentralAsia => "Caucasus and Central Asia"
    case CentralAmerica => "Central America"
    case SouthAmerica => "South America"
    case Caribbean => "Caribbean"
    case EastAsia => "East Asia"
    case NorthAmerica => "North America"
    case Oceania => "Oceania"
    case Antarctica => "Antarctica"
  }

  /** `Region::from_str`: case-sensitive lookup of a display name. */
  function ParseRegion(s: string): (r: Option<Region>)
    ensures r.Some? ==> Name(r.value) == s
  {
    if s == "Western Africa" then Some(WesternAfrica)
    else if s == "Middle Africa" then Some(MiddleAfrica)
    else if s == "Eastern Africa" then Some(EasternAfrica)
    else if s == "Southern Africa" then Some(SouthernAfrica)
    else if s == "Northern Africa" then Some(NorthernAfrica)
    else if s == "South Asia" then Some(SouthAsia)
    else if s == "Southeast Asia" then Some(SoutheastAsia)
    else if s == "Middle East" then Some(MiddleEast)
    else if s == "Europe" then Some(Europe)
    else if s == "Caucasus and Central Asia" then Some(CaucasusAndCentralAsia)
    else if s == "Central America" then Some(CentralAmerica)
    else if s == "South America" then Some(SouthAmerica)
    else if s == "Caribbean" then Some(Caribbean)
    else if s == "East Asia" then Some(EastAsia)
    else if s == "North America" then Some(NorthAmerica)
    else if s == "Oceania" then Some(Oceania)
    else if s == "Antarctica" then Some(Antarctica)
    else None
  }

  /** A region's query-string rendering is its decimal code, not its name. */
  function RegionParameter(r: Region): (s: string)
    ensures ParseU64(s) == Some(Code(r) as u64)
    ensures |s| >= 1 && AllDigits(s) && s[0] != '0'
  {
    ParseRenderU64(Code(r) as u64);
    Render(Code(r))
  }

  /** Distinct regions have distinct codes. */
  lemma CodesDistinct(r1: Region, r2: Region)
    requires Code(r1) == Code(r2)
    ensures r1 == r2
  {
  }

  /** Reading a region's display name gives that region back. */
  lemma ParseName(r: Region)
    ensures ParseRegion(Name(r)) == Some(r)
  {
  }

  /** Distinct regions have distinct display names. */
  lemma NamesDistinct(r1: Region, r2: Region)
    requires Name(r1) == Name(r2)
    ensures r1 == r2
  {
    ParseName(r1);
    ParseName(r2);
  }

  /** A string that is no region's display name does not parse. */
  lemma ParseRejectsNonNames(s: string)
    requires forall r :: Name(r) != s
    ensures ParseRegion(s) == None
  {
  }

  lemma Examples()
    ensures RegionParameter(MiddleAfrica) == "2"
    ensures ParseRegion("Middle Africa") == Some(MiddleAfrica)
    ensures ParseRegion("Europe") == Some(Europe)
    ensures ParseRegion("MiddleAfrica") == None
  {
  }
}

=== FILE: response.dfy ===
/**
 * The page envelope the API answers with, already decoded into one of its
 * two shapes, and `Response::into`, which checks the envelope's integrity
 * and converts its records.
 */
module Responses {
  import opened Wrappers
  import opened Numbers
  import Errors

  datatype ErrorData = ErrorData(message: string)

  /** A decoded page: records on success, or the API's error message. */
  datatype Response<T> =
    | Data(success: bool, count: u32, data: seq<T>)
    | Error(success: bool, count: u32, error: ErrorData)

  /** The integrity assertions `into` makes, each a panic when it fails. */
  datatype Assertion =
    | DataSuccess      // a data envelope reports success
    | DataCount        // a data envelope's count is its number of records
    | ErrorNotSuccess  // an error envelope reports failure
    | ErrorCountZero   // an error envelope's count is zero

  /** What a call does: return a result, or panic because an assertion failed. */
  datatype Checked<T> = Returned(result: Errors.Outcome<T>) | Panicked(failed: Assertion)

  /** The envelope invariant the API promises. */
  function WellFormed<T>(r: Response<T>): (b: bool)
    ensures b <==> (r.success <==> r.Data?) && r.count as int == (if r.Data? then |r.data| else 0)
  {
    match r
    case Data(success, count, data) => success && count as int == |data|
    case Error(success, count, _) => !success && count == 0
  }

  /**
   * Collecting an iterator of results into a result: convert every record
   * in order, stopping at the first error.
   */
  function Collect<R, S>(data: seq<R>, convert: R -> Errors.Outcome<S>): (r: Errors.Outcome<seq<S>>)
    ensures r.Ok? <==> forall i :: 0 <= i < |data| ==> convert(data[i]).Ok?
    ensures r.Ok? ==> |r.value| == |data|
                      && forall i :: 0 <= i < |data| ==> convert(data[i]) == Ok(r.value[i])
    ensures r.Err? ==> exists i :: 0 <= i < |data|
                                   && convert(data[i]) == Err(r.error)
                                   && forall j :: 0 <= j < i ==> convert(data[j]).Ok?
  {
    if |data| == 0 then Ok([])
    else match convert(data[0])
      case Err(e) => Err(e)
      case Ok(x) =>
        match Collect(data[1..], convert)
        case Err(e) =>
          assert forall j :: 0 <= j < |data| - 1 ==> data[1..][j] == data[j + 1];
          Err(e)
        case Ok(xs) => Ok([x] + xs)
  }

  /**
   * `Response::into`: a data envelope yields its converted records, an
   * error envelope yields the API error; an envelope that breaks the
   * integrity invariant panics instead.
   */
  function Into<R, S>(resp: Response<R>, convert: R -> Errors.Outcome<S>): (c: Checked<seq<S>>)
    ensures c.Panicked? <==> !WellFormed(resp)
    ensures c.Panicked? && resp.Data? ==> c.failed == (if resp.success then DataCount else DataSuccess)
    ensures c.Panicked? && resp.Error? ==> c.failed == (if resp.success then ErrorNotSuccess else ErrorCountZero)
    ensures c.Returned? && resp.Error? ==> c.result == Err(Errors.APIError(resp.error.message))
    ensures c.Returned? && c.result.Ok? ==>
              resp.Data? && |c.result.value| == resp.count as int
              && forall i :: 0 <= i < |resp.data| ==> convert(resp.data[i]) == Ok(c.result.value[i])
    ensures c.Returned? && resp.Data? && c.result.Err? ==>
              exists i :: 0 <= i < |resp.data|
                          && convert(resp.data[i]) == Err(c.result.error)
                          && forall j :: 0 <= j < i ==> convert(resp.data[j]).Ok?
  {
    match resp
    case Data(success, count, data) =>
      if !success then Panicked(DataSuccess)
      else if count as int != |data| then Panicked(DataCount)
      else Returned(Collect(data, convert))
    case Error(success, count, error) =>
      if success then Panicked(ErrorNotSuccess)
      else if count != 0 then Panicked(ErrorCountZero)
      else Returned(Err(Errors.APIError(error.message)))
  }

  /** An empty, well-formed data page converts to no records. */
  lemma EmptyPage<R, S>(convert: R -> Errors.Outcome<S>)
    ensures Into(Data(true, 0, []), convert) == Returned(Ok([]))
  {
  }

  /** The API's error envelope surfaces its message and no records. */
  lemma ErrorEnvelope<R, S>(message: string, convert: R -> Errors.Outcome<S>)
    ensures Into(Error(false, 0, ErrorData(message)), convert) == Returned(Err(Errors.APIError(message)))
  {
  }
}

=== FILE: wrappers.dfy ===
/** Option and Result, the failure-carrying datatypes the rest of the model uses. */
module Wrappers {

  datatype Option<+T> = None | Some(value: T)

  /** Rust's `Result<T, E>`: a value or an error. */
  datatype Result<+T, +E> = Ok(value: T) | Err(error: E)
}
